=== FILE: README.md ===
# E-invoice taxpayer integration — Dafny model

This project models the core of an Odoo add-on that connects to a Turkish
e-invoice (e-Fatura) web service. It covers four things:

- **Taxpayer import.** The integration record (`edevlet.integration`) asks the
  service for the list of registered taxpayers. It folds the returned
  `EInvoiceCustomerResult` entries into `einvoice.company.import` records,
  updating an existing record or creating a new one for each entry.
- **Customer tax-id check.** The same record checks one customer tax id. It
  upserts the answer and builds a summary with one line per entry.
- **Profile types.** Journal entries carry a profile type. Customer invoices
  and refunds must have one.
- **The partner action.** A partner's "check customer tax id" action picks the
  tax id to send and the integration that sends it.

The modules follow the source files:

- `Wrappers`: `Option` and `Result`.
- `PyStr`: the Python string operations the code relies on. These are
  `str.strip` (with Python's whitespace set), `str.lower` and truthiness.
- `EdevletIntegration` (models/edevletintegration.py):
  - the text helpers `_normalize_node_text`, `_get_node_text` and
    `_normalize_datetime`;
  - the service-result status check and its error values;
  - parsing of the integration type into the e-invoice type number;
  - the settings and ticket checks.
- `TaxpayerImport` (models/edevletintegration.py): the upsert of one entry,
  keyed by tax number and alias, and the fold over a sequence of entries. The
  three code paths differ in how they read fields, and these readers are
  modelled:
  - `_upsert_taxpayers_from_xml_stream`;
  - `_upsert_check_customer_tax_id_results`;
  - `_upsert_taxpayers`.
- `TaxpayerService` (models/edevletintegration.py): the three service calls
  after a response has been parsed:
  - the taxpayer-list status check;
  - the streaming import, as a loop over `iterparse` events;
  - the customer tax-id check with its summary lines.
- `AccountMove` (models/account_move.py): the `PROFILE_TYPES` selection and
  the `_check_profile_type_required` constraint.
- `ResPartner` (models/res_partner.py): the tax-id selection and the two
  precondition checks of `action_check_customer_tax_id`.

Modelling conventions:

- Python's falsy `None` and `False` are `None`, and an empty string is
  `Some("")`.
- An ElementTree `findtext` result is `None` when the element is missing and
  `Some("")` when the element has no text.
- The `einvoice.company.import` table is a sequence of records in the order
  its searches return them. The definition of `einvoice.company.import` is
  not part of this model. The sequence is taken to be creation order, which
  assumes that table keeps Odoo's default order by id and has no `active`
  field hiding records. `search(domain, limit=1)` is then the first record
  that matches.

Status comparison differs between the calls:

- `_get_taxpayer_nodes` and `_check_customer_tax_id` compare the
  `ServiceResult` text as found.
- The streaming import strips it first.
- So a padded `' successful'` passes the streaming import and fails the other
  two calls (`TaxpayerService.PaddedSuccessOnlyPassesStream`, built on
  `TaxpayerService.PaddedIsNotSuccessful`).

`_get_taxpayer_nodes` and `_upsert_taxpayers` have no caller in the
files modelled here. They are modelled because they are a second,
non-streaming version of the import.

Where status elements repeat:

- The streaming import keeps the last `ServiceResult` it sees.
- `findtext` keeps the first.

## Model

| member | source | states |
|---|---|---|
| PyStr.Strip | models/edevletintegration.py:192-199 | the stripped text has no whitespace at either end; it is a contiguous piece of the input with only whitespace around it; it is empty exactly when the input is all whitespace |
| PyStr.StripIdempotent | models/edevletintegration.py:376-380 | stripping twice is stripping once |
| PyStr.StripPadding | models/edevletintegration.py:264 | whitespace, then a trimmed word, then whitespace strips to exactly that word |
| PyStr.Lower | models/edevletintegration.py:128 | lower-casing keeps the length and maps every character on its own |
| EdevletIntegration.NormalizeNodeText | models/edevletintegration.py:376-380 | False exactly for a missing or blank value; otherwise the stripped text, which is non-empty and trimmed |
| EdevletIntegration.NormalizeNodeTextIdempotent | models/edevletintegration.py:376-380 | normalising a normalised value changes nothing |
| EdevletIntegration.GetNodeText | models/edevletintegration.py:365-369 | False exactly when the element is missing or has no text; '' exactly when the text is all whitespace |
| EdevletIntegration.GetNodeTextVersusNormalize | models/edevletintegration.py:365-380 | the two readers agree except on blank text, where one gives '' and the other False |
| EdevletIntegration.NormalizeDatetime | models/edevletintegration.py:371-374 | falsy values pass through; otherwise every 'T' becomes a space where it stands and every 'Z' is dropped, the other characters kept in order; the result has no 'T' and no 'Z' and is shorter by the number of Zs |
| EdevletIntegration.ReplaceChar | models/edevletintegration.py:374 | replacing a character keeps the length, changes exactly the positions holding it, and leaves none of it behind |
| EdevletIntegration.DeleteChar | models/edevletintegration.py:374 | removing a character leaves none of it, keeps every other character, leaves text without it unchanged, and shortens the text by its number of occurrences |
| EdevletIntegration.DeleteCharAppend | models/edevletintegration.py:374 | removing a character works piece by piece, so the characters kept stay in their order |
| EdevletIntegration.NormalizeDatetimeAppend | models/edevletintegration.py:371-374 | a non-empty date-time text normalises as the concatenation of its normalised pieces |
| EdevletIntegration.NormalizeDatetimeChar | models/edevletintegration.py:374 | one character normalises to a space for 'T', to nothing for 'Z', and to itself otherwise |
| EdevletIntegration.NormalizeDatetimeIdempotent | models/edevletintegration.py:371-374 | normalising a normalised date changes nothing |
| EdevletIntegration.NormalizeDatetimeExample | models/edevletintegration.py:371-374 | an ISO-8601 UTC timestamp becomes 'date time' |
| EdevletIntegration.CheckServiceResult | models/edevletintegration.py:127-134 | raises exactly when the result text fails (non-empty and not 'successful' in any letter case); the error carries the code and description, with '-' for an empty one |
| EdevletIntegration.ServiceCheckIgnoresCase | models/edevletintegration.py:128 | two result texts with the same lower-case form give the same outcome |
| EdevletIntegration.ServiceCheckExamples | models/edevletintegration.py:222-226 | '' and 'Successful' pass; 'Failed' and ' successful' raise; an empty code shows as '-' |
| EdevletIntegration.ParseEinvoiceType | models/edevletintegration.py:174 | a number exactly when the type text is non-empty and all decimal digits |
| EdevletIntegration.ParseDecimal | models/edevletintegration.py:174 | parsing the decimal spelling of n gives back n |
| EdevletIntegration.ParseEinvoiceTypeExamples | models/edevletintegration.py:278 | leading zeros are accepted; blank, missing, signed or padded text gives False |
| EdevletIntegration.EinvoiceType | models/edevletintegration.py:307 | every integration type gives a number from 1 to 3 whose decimal spelling is the type's key, and 1 exactly for EFATURA |
| EdevletIntegration.EinvoiceTypeNumbers | models/edevletintegration.py:20-24 | EFATURA stores 1, EARSIV 2 and EIRSALIYE 3 |
| EdevletIntegration.CheckImportSettings | models/edevletintegration.py:79-84 | a missing URL is reported first; then any missing company code, user name or password is reported |
| EdevletIntegration.TicketFrom | models/edevletintegration.py:104-109 | fails exactly when the ticket element is missing or empty; otherwise the trimmed text |
| EdevletIntegration.Message | models/edevletintegration.py:131-134 | a failed call's message opens with that call's heading and ends with the code, the description label and the description, with nothing in between; the settings and ticket errors carry the texts raised at lines 82, 84 and 108 |
| EdevletIntegration.TicketIsNodeText | models/edevletintegration.py:104-109 | the ticket is read exactly as `_get_node_text` reads a field |
| TaxpayerImport.ReadTaxNo | models/edevletintegration.py:198 | all three readers skip an entry exactly when its tax number is blank, and otherwise store the stripped text |
| TaxpayerImport.ReadAlias | models/edevletintegration.py:199 | the alias is truthy exactly when its text is not blank, and then holds the stripped text; a blank alias is '' for the streaming reader (199) and for blank present text under `_upsert_taxpayers` (310), and False under the tax-id check (282) and for a missing or empty element under `_upsert_taxpayers` |
| TaxpayerImport.ReadText | models/edevletintegration.py:204-207 | a text field is truthy exactly when its text is not blank, and then holds the stripped text; a blank field is '' only under `_upsert_taxpayers` for blank present text (316-319), and False otherwise |
| TaxpayerImport.ReadEntry | models/edevletintegration.py:198-210 | an entry gives values exactly when it has a tax number; it writes the stripped tax number, the alias and text fields as the reader reads them, both dates normalised, and the integration's e-invoice type |
| TaxpayerImport.Matches | models/edevletintegration.py:210-212 | a record matches on the tax number alone when the entry's alias is empty, and on the tax number and the alias otherwise |
| TaxpayerImport.FindFirst | models/edevletintegration.py:210-213 | the first record matching the tax number, and the alias when one is given; no result exactly when none matches |
| TaxpayerImport.Upsert | models/edevletintegration.py:210-217 | the store grows by one exactly when nothing matched, by appending the entry; otherwise only the first match is overwritten |
| TaxpayerImport.UpsertThenFind | models/edevletintegration.py:210-217 | after an upsert, a search on the entry's key finds the entry's values |
| TaxpayerImport.UpsertIdempotent | models/edevletintegration.py:321-329 | upserting the same values twice equals upserting them once |
| TaxpayerImport.AliasLessEntryOverwritesAlias | models/edevletintegration.py:321-324 | an entry without an alias overwrites a record with the same tax number and any alias |
| TaxpayerImport.NewAliasAppends | models/edevletintegration.py:294-297 | an entry with a new alias for a known tax number creates a second record |
| TaxpayerImport.ImportAll | models/edevletintegration.py:304-331 | the count is the number of entries with a tax number; the store grows by at most that many |
| TaxpayerImport.ImportSnoc | models/edevletintegration.py:309-330 | importing one more entry is one more skip-or-upsert step |
| TaxpayerImport.BlankEntryChangesNothing | models/edevletintegration.py:283-284 | an entry with a blank tax number leaves the store and the count alone |
| TaxpayerImport.LastEntryWins | models/edevletintegration.py:296-302 | after the fold, the last entry's key finds the last entry's values |
| TaxpayerImport.ReadersAgreeOnTaxNo | models/edevletintegration.py:280-284 | the three readers skip the same entries and store the same tax number |
| TaxpayerImport.UpsertTaxpayers | models/edevletintegration.py:304-331 | the loop gives the fold's store and returns the number of entries with a tax number |
| TaxpayerService.GetTaxpayerNodes | models/edevletintegration.py:125-135 | fails exactly when the unstripped result text reports failure, with that call's error; otherwise all customer entries |
| TaxpayerService.LastStatus | models/edevletintegration.py:190-196 | a status field holds trimmed text |
| TaxpayerService.Absorb | models/edevletintegration.py:187-220 | a status element overwrites its field with the stripped text; a customer entry with a tax number is counted and its values end up in the store; anything else changes neither store nor count |
| TaxpayerService.AbsorbTracksStatus | models/edevletintegration.py:188-196 | each event keeps every status field equal to the last value set so far |
| TaxpayerService.AbsorbTracksEntries | models/edevletintegration.py:197-219 | each event keeps the store and the count equal to the fold over the customer entries seen so far |
| TaxpayerService.UpsertFromStream | models/edevletintegration.py:171-228 | the store always ends as the fold over all entries; the call fails exactly when the last stripped result text reports failure; on success it returns the count |
| TaxpayerService.ImportTaxpayerList | models/edevletintegration.py:79-87 | a settings error comes first, then a missing ticket; neither touches the store; otherwise the streaming import's store, count and status error |
| TaxpayerService.FailureAfterEntries | models/edevletintegration.py:212-226 | an entry before a failing status is counted and its values are in the store, and the call still fails |
| TaxpayerService.PaddedIsNotSuccessful | models/edevletintegration.py:128 | a text that starts with whitespace always counts as failed when compared unstripped |
| TaxpayerService.PaddedSuccessOnlyPassesStream | models/edevletintegration.py:192-222 | whitespace-padded 'successful' passes the streaming import but fails the taxpayer-list query and the tax-id check |
| TaxpayerService.Field | models/edevletintegration.py:267-269 | a summary field is never empty: the normalised text of the element, or '-' exactly when that text is blank or missing (or is itself '-') |
| TaxpayerService.SummaryLine | models/edevletintegration.py:264-272 | a summary line is the tax id, name and alias fields, each followed by a bar separator, then the 'Durum: ' label, then 'Var' or 'Yok' according to the IsExist text, and nothing else |
| TaxpayerService.SummaryLines | models/edevletintegration.py:262-273 | one summary line per customer entry, in order |
| TaxpayerService.Join | models/edevletintegration.py:274 | no lines join to '', one line joins to itself, and more lines join to text that opens with the first line and a separator and closes with a separator and the last line |
| TaxpayerService.JoinSeparators | models/edevletintegration.py:274 | the joined text of lines that contain no line break holds one break fewer than there are lines |
| TaxpayerService.JoinSplitRoundTrip | models/edevletintegration.py:274 | splitting the joined text at the break gives the lines back, so the breaks sit exactly between the lines |
| TaxpayerService.SummaryLineCount | models/edevletintegration.py:256-274 | a successful check with entries whose summary lines have no line break returns exactly one line per entry: splitting the summary at the breaks gives the entries' summary lines, in order |
| TaxpayerService.CheckCustomerTaxId | models/edevletintegration.py:230-274 | fails exactly when the unstripped result text reports failure; no entries gives the fixed message and leaves the store alone; otherwise the store is the fold over the entries and the summary joins one line per entry |
| TaxpayerService.StatusVarIffRegistered | models/edevletintegration.py:264-270 | a line says 'Var' exactly when the customer is registered |
| TaxpayerService.IsRegisteredIgnoresPadding | models/edevletintegration.py:264 | padded IsExist text counts as registered exactly when the word is 'true' in some letter case |
| TaxpayerService.IsExistExamples | models/edevletintegration.py:264-270 | a missing IsExist reads 'Yok', 'TRUE' reads 'Var' and '1' reads 'Yok' |
| AccountMove.ParseProfileType | models/account_move.py:4-14 | a recognised key reads back as the profile type with that key |
| AccountMove.ParseAcceptsTheKeys | models/account_move.py:4-14 | exactly the keys of the selection list are accepted |
| AccountMove.ParseCode | models/account_move.py:4-14 | every profile type's key reads back as that profile type |
| AccountMove.CodeInjective | models/account_move.py:4-14 | no two profile types share a key |
| AccountMove.ProfileTypesList | models/account_move.py:4-14 | every entry's label equals its key, and every profile type is listed under its key |
| AccountMove.Message | models/account_move.py:26 | the constraint's error text |
| AccountMove.CheckProfileTypeRequired | models/account_move.py:22-26 | raises exactly when some customer invoice or refund has no profile type |
| AccountMove.OtherMoveTypesPass | models/account_move.py:25 | batches without customer invoices or refunds always pass |
| AccountMove.ProfileTypeSetPasses | models/account_move.py:25 | batches where every move has a profile type always pass |
| AccountMove.MissingProfileFails | models/account_move.py:24-26 | one customer invoice or refund without a profile type fails the whole batch |
| AccountMove.CheckSplits | models/account_move.py:24-26 | a batch passes exactly when each of its two parts passes |
| ResPartner.Message | models/res_partner.py:29-34 | the texts of the missing tax id and missing EFATURA integration errors |
| ResPartner.SelectTaxId | models/res_partner.py:28 | the Vergi No when it is set and non-empty, otherwise the VAT, stripped; the fallback is decided before stripping |
| ResPartner.BlankVergiNoShadowsVat | models/res_partner.py:28-30 | a whitespace-only Vergi No hides the VAT, and the action reports a missing tax id |
| ResPartner.FirstEfatura | models/res_partner.py:32 | the position of the first EFATURA integration; none exactly when there is none |
| ResPartner.PrepareTaxIdCheck | models/res_partner.py:28-34 | a missing tax id is reported before the integration lookup; then a missing EFATURA integration; otherwise the trimmed, non-empty tax id and an EFATURA integration |
| ResPartner.ChosenIntegrationIsFirst | models/res_partner.py:32-34 | the integration used is the first EFATURA one |
| ResPartner.LaterIntegrationsIgnored | models/res_partner.py:32 | adding records after the first EFATURA integration does not change the choice |

## Left out

- SOAP envelopes, the HTTP transport, its errors, and XML parsing are not
  modelled. This includes the parse error raised when a stream cannot be
  started. A response arrives already split into status texts and customer
  entries, or as a sequence of `iterparse` events.
- The two import actions are left out. One computes its start date from
  today's date (the first of January of last year), and the other uses
  '2010-01-01'. Both show the imported count in a notification.
- The ticket and the start date only go into request envelopes. Their text
  does not affect the modelled behaviour.
- Odoo's transaction rollback on `UserError` is not modelled. The streaming
  import writes its entries before the status check raises, and the model
  returns that store together with the error (`TaxpayerService.FailureAfterEntries`).
- `elem.clear()` and `root.clear()` in the streaming import only free memory,
  so they are left out.
- The rest of `action_check_customer_tax_id` is left out. That is the ticket
  call, the service call, and the writes of `result.get('summary')` and
  `result.get('status')`. `_check_customer_tax_id` returns a string, not a
  mapping, so these lines do not match the call they follow.
- The action buttons, notifications, `ensure_one`, and the XSLT base64
  computation are left out as ORM and UI plumbing. So are the invoice preview
  wizard, the PDF runtime, the manifest, the tax-group extension and UBL
  document generation.
- Translation is left out. Every user-facing text goes through Odoo's `_()`:
  the error messages, the summary line format and its 'Var' and 'Yok'
  words, and the no-records message. `_()` returns a translation when one is
  installed for the user's language. The model fixes the untranslated
  source texts, and `TaxpayerService.SummaryLine` states its 'Var'/'Yok'
  ending in those words.
- PyStr.Lower: only ASCII letters are lower-cased. That is exact for the
  comparisons with 'successful' and 'true', which are ASCII.
- EdevletIntegration.ParseEinvoiceType: `str.isdigit` is modelled for ASCII
  digits only. The integration type is a selection of '1', '2' and '3'.
- TaxpayerImport.Upsert: the model assumes the table has no unique
  constraint on (tax number, alias), so create and write never fail. A
  constraint-violation error is not modelled, because the table's definition
  is not part of this model. The model only states how one search-then-write
  behaves on a sequence of records.

=== FILE: account_move.dfy ===
/** The profile type of a journal entry (models/account_move.py): the
    selection of e-invoice profiles and the constraint that customer
    invoices and refunds carry one. */
module AccountMove {
  import opened Wrappers

  // ---------------------------------------------------------------------
  // Profile types

  /** The e-invoice profiles an invoice may be issued under. */
  datatype ProfileType =
    | Ticarifatura
    | Ihracat
    | Temelfatura
    | Yolcuberaberfatura
    | Bedelsizihracat
    | Kamu
    | Enerji
    | IlacTibbicihaz
    | Mikroihracat
  {
    /** The stored selection key. */
    function Code(): string {
      match this
      case Ticarifatura => "TICARIFATURA"
      case Ihracat => "IHRACAT"
      case Temelfatura => "TEMELFATURA"
      case Yolcuberaberfatura => "YOLCUBERABERFATURA"
      case Bedelsizihracat => "BEDELSIZIHRACAT"
      case Kamu => "KAMU"
      case Enerji => "ENERJI"
      case IlacTibbicihaz => "ILAC_TIBBICIHAZ"
      case Mikroihracat => "MIKROIHRACAT"
    }
  }

  /** The selection list, (key, label) pairs in display order. */
  const ProfileTypes: seq<(string, string)> := [
    ("TICARIFATURA", "TICARIFATURA"),
    ("IHRACAT", "IHRACAT"),
    ("TEMELFATURA", "TEMELFATURA"),
    ("YOLCUBERABERFATURA", "YOLCUBERABERFATURA"),
    ("BEDELSIZIHRACAT", "BEDELSIZIHRACAT"),
    ("KAMU", "KAMU"),
    ("ENERJI", "ENERJI"),
    ("ILAC_TIBBICIHAZ", "ILAC_TIBBICIHAZ"),
    ("MIKROIHRACAT", "MIKROIHRACAT")
  ]

  /** A selection key is valid when it is one of the list's keys. */
  predicate IsProfileKey(s: string) {
    exists i :: 0 <= i < |ProfileTypes| && ProfileTypes[i].0 == s
  }

  /** Reading a stored selection key back into a profile type; any other
      text is not a value the selection accepts. */
  function ParseProfileType(s: string): (r: Option<ProfileType>)
    ensures r.Some? ==> r.value.Code() == s
  {
    if s == "TICARIFATURA" then Some(Ticarifatura)
    else if s == "IHRACAT" then Some(Ihracat)
    else if s == "TEMELFATURA" then Some(Temelfatura)
    else if s == "YOLCUBERABERFATURA" then Some(Yolcuberaberfatura)
    else if s == "BEDELSIZIHRACAT" then Some(Bedelsizihracat)
    else if s == "KAMU" then Some(Kamu)
    else if s == "ENERJI" then Some(Enerji)
    else if s == "ILAC_TIBBICIHAZ" then Some(IlacTibbicihaz)
    else if s == "MIKROIHRACAT" then Some(Mikroihracat)
    else None
  }

  /** Exactly the keys of the selection list are accepted. */
  lemma ParseAcceptsTheKeys(s: string)
    ensures ParseProfileType(s).Some? <==> IsProfileKey(s)
  {
    var r := ParseProfileType(s);
    if r.Some? {
      ProfileTypesList(r.value);
    } else {
      forall i | 0 <= i < |ProfileTypes|
        ensures ProfileTypes[i].0 != s
      {
      }
    }
  }

  /** Every profile type's key reads back as that profile type. */
  lemma ParseCode(p: ProfileType)
    ensures ParseProfileType(p.Code()) == Some(p)
  {
  }

  /** The stored key determines the profile type. */
  lemma CodeInjective(p: ProfileType, q: ProfileType)
    requires p.Code() == q.Code()
    ensures p == q
  {
    ParseCode(p);
    ParseCode(q);
  }

  /** Every entry of the selection list uses its key as its label, and
      every profile type appears in it under its own key. */
  lemma ProfileTypesList(p: ProfileType)
    ensures forall i :: 0 <= i < |ProfileTypes| ==> ProfileTypes[i].1 == ProfileTypes[i].0
    ensures exists i :: 0 <= i < |ProfileTypes| && ProfileTypes[i] == (p.Code(), p.Code())
  {
    match p
    case Ticarifatura => assert ProfileTypes[0] == (p.Code(), p.Code());
    case Ihracat => assert ProfileTypes[1] == (p.Code(), p.Code());
    case Temelfatura => assert ProfileTypes[2] == (p.Code(), p.Code());
    case Yolcuberaberfatura => assert ProfileTypes[3] == (p.Code(), p.Code());
    case Bedelsizihracat => assert ProfileTypes[4] == (p.Code(), p.Code());
    case Kamu => assert ProfileTypes[5] == (p.Code(), p.Code());
    case Enerji => assert ProfileTypes[6] == (p.Code(), p.Code());
    case IlacTibbicihaz => assert ProfileTypes[7] == (p.Code(), p.Code());
    case Mikroihracat => assert ProfileTypes[8] == (p.Code(), p.Code());
  }

  // ---------------------------------------------------------------------
  // The profile-type constraint

  /** The `move_type` of a journal entry. */
  datatype MoveType = Entry | OutInvoice | OutRefund | InInvoice | InRefund | OutReceipt | InReceipt

  /** The fields the constraint reads; an unset profile type is None. */
  datatype Move = Move(moveType: MoveType, profileType: Option<ProfileType>)

  datatype ValidationError = ProfileTypeRequired

  const ProfileTypeRequiredText := "Profile Type is required for customer invoices."

  /** The user-facing text of the error, untranslated. */
  function Message(e: ValidationError): (m: string)
    ensures m == ProfileTypeRequiredText
  {
    ProfileTypeRequiredText
  }

  /** A customer invoice or refund without a profile type. */
  predicate Violates(m: Move) {
    (m.moveType == OutInvoice || m.moveType == OutRefund) && m.profileType.None?
  }

  /** `_check_profile_type_required`: the moves are checked in order and
      the first customer invoice or refund without a profile type raises. */
  function CheckProfileTypeRequired(moves: seq<Move>): (r: Result<(), ValidationError>)
    ensures r.Failure? <==> exists i :: 0 <= i < |moves| && Violates(moves[i])
    ensures r.Failure? ==> r.error == ProfileTypeRequired
  {
    if |moves| == 0 then Success(())
    else if Violates(moves[0]) then Failure(ProfileTypeRequired)
    else
      var rest := CheckProfileTypeRequired(moves[1..]);
      assert forall i :: 1 <= i < |moves| ==> moves[i] == moves[1..][i - 1];
      rest
  }

  /** Only customer invoices and refunds are constrained: vendor bills,
      receipts and plain entries pass with or without a profile type. */
  lemma OtherMoveTypesPass(moves: seq<Move>)
    requires forall i :: 0 <= i < |moves| ==> moves[i].moveType != OutInvoice && moves[i].moveType != OutRefund
    ensures CheckProfileTypeRequired(moves).Success?
  {
  }

  /** Moves that all carry a profile type pass. */
  lemma ProfileTypeSetPasses(moves: seq<Move>)
    requires forall i :: 0 <= i < |moves| ==> moves[i].profileType.Some?
    ensures CheckProfileTypeRequired(moves).Success?
  {
  }

  /** A customer invoice or refund without a profile type fails, whatever
      the other moves of the batch. */
  lemma MissingProfileFails(before: seq<Move>, m: Move, after: seq<Move>)
    requires m.moveType == OutInvoice || m.moveType == OutRefund
    requires m.profileType.None?
    ensures CheckProfileTypeRequired(before + [m] + after) == Failure(ProfileTypeRequired)
  {
    assert (before + [m] + after)[|before|] == m;
  }

  /** Checking a batch is checking each part: the batch passes exactly
      when both halves pass. */
  lemma {:induction false} CheckSplits(a: seq<Move>, b: seq<Move>)
    ensures CheckProfileTypeRequired(a + b).Success?
        <==> CheckProfileTypeRequired(a).Success? && CheckProfileTypeRequired(b).Success?
  {
    var ab := a + b;
    if CheckProfileTypeRequired(a).Failure? {
      var i :| 0 <= i < |a| && Violates(a[i]);
      assert ab[i] == a[i];
    } else if CheckProfileTypeRequired(b).Failure? {
      var i :| 0 <= i < |b| && Violates(b[i]);
      assert ab[|a| + i] == b[i];
    } else {
      forall i | 0 <= i < |ab|
        ensures !Violates(ab[i])
      {
        if i < |a| {
          assert ab[i] == a[i];
        } else {
          assert ab[i] == b[i - |a|];
        }
      }
    }
  }
}

=== FILE: edevlet_integration.dfy ===
/** The text helpers, service-result check, integration settings and
    e-invoice type parsing of the e-invoice integration record
    (models/edevletintegration.py). SOAP transport and XML parsing are not
    modelled: a child element's text arrives the way ElementTree's
    `findtext` reports it, None when the element is missing and Some("")
    when it has no text. */
module EdevletIntegration {
  import opened Wrappers
  import opened PyStr

  // ---------------------------------------------------------------------
  // Node text

  /** `_normalize_node_text`: False for a missing, empty or blank value,
      otherwise the stripped text, which is then never empty. */
  function NormalizeNodeText(value: Option<string>): (r: Option<string>)
    ensures r.None? <==> AllSpace(OrEmpty(value))
    ensures r.Some? ==> r.value != "" && Trimmed(r.value) && r.value == Strip(value.value)
  {
    if !Truthy(value) then None
    else
      var cleaned := Strip(value.value);
      if cleaned == "" then None else Some(cleaned)
  }

  /** Normalising an already-normalised value changes nothing. */
  lemma NormalizeNodeTextIdempotent(value: Option<string>)
    requires NormalizeNodeText(value).Some?
    ensures NormalizeNodeText(NormalizeNodeText(value)) == NormalizeNodeText(value)
  {
    var r := NormalizeNodeText(value).value;
    StripTrimmed(r);
  }

  /** `_get_node_text`: False when the child is missing or has no text,
      otherwise the stripped text; unlike `NormalizeNodeText`, blank text
      yields the empty string rather than False. */
  function GetNodeText(found: Option<string>): (r: Option<string>)
    ensures r.None? <==> !Truthy(found)
    ensures r.Some? ==> Trimmed(r.value) && r.value == Strip(found.value)
    ensures r == Some("") <==> Truthy(found) && AllSpace(found.value)
  {
    if !Truthy(found) then None else Some(Strip(found.value))
  }

  /** The two text readers agree except on blank non-empty text, which one
      turns into '' and the other into False. */
  lemma GetNodeTextVersusNormalize(found: Option<string>)
    ensures Truthy(found) && AllSpace(found.value) ==>
              GetNodeText(found) == Some("") && NormalizeNodeText(found) == None
    ensures !(Truthy(found) && AllSpace(found.value)) ==>
              GetNodeText(found) == NormalizeNodeText(found)
  {
  }

  // ---------------------------------------------------------------------
  // Date-time text

  function Occurrences(s: string, c: char): (n: nat)
    ensures n <= |s|
    ensures n == 0 <==> c !in s
  {
    if s == [] then 0 else (if s[0] == c then 1 else 0) + Occurrences(s[1..], c)
  }

  /** Counting a character distributes over concatenation. */
  lemma {:induction false} OccurrencesAppend(a: string, b: string, c: char)
    ensures Occurrences(a + b, c) == Occurrences(a, c) + Occurrences(b, c)
  {
    if a != [] {
      assert (a + b)[1..] == a[1..] + b;
      OccurrencesAppend(a[1..], b, c);
    } else {
      assert a + b == b;
    }
  }

  /** `s.replace(a, b)` for single characters. */
  function ReplaceChar(s: string, a: char, b: char): (r: string)
    ensures |r| == |s|
    ensures forall i :: 0 <= i < |s| ==> r[i] == (if s[i] == a then b else s[i])
    ensures a != b ==> a !in r
  {
    seq(|s|, i requires 0 <= i < |s| => if s[i] == a then b else s[i])
  }

  /** `s.replace(c, '')`: every `c` is gone, every other character is kept
      in order, and the string shrinks by the number of `c`s. */
  function DeleteChar(s: string, c: char): (r: string)
    ensures c !in r
    ensures |r| + Occurrences(s, c) == |s|
    ensures forall x :: x != c ==> (x in r <==> x in s)
    ensures c !in s ==> r == s
  {
    if s == [] then []
    else if s[0] == c then DeleteChar(s[1..], c)
    else
      var rest := DeleteChar(s[1..], c);
      assert forall x :: x in s <==> x == s[0] || x in s[1..];
      [s[0]] + rest
  }

  /** Replacing a character works piece by piece. */
  lemma ReplaceCharAppend(a: string, b: string, x: char, y: char)
    ensures ReplaceChar(a + b, x, y) == ReplaceChar(a, x, y) + ReplaceChar(b, x, y)
  {
    var l := ReplaceChar(a + b, x, y);
    var m := ReplaceChar(a, x, y) + ReplaceChar(b, x, y);
    assert |l| == |m|;
    forall i | 0 <= i < |l|
      ensures l[i] == m[i]
    {
      if i < |a| {
        assert (a + b)[i] == a[i];
      } else {
        assert (a + b)[i] == b[i - |a|];
      }
    }
  }

  /** Deleting a character works piece by piece, so the characters kept
      stay in their order. */
  lemma {:induction false} DeleteCharAppend(a: string, b: string, c: char)
    ensures DeleteChar(a + b, c) == DeleteChar(a, c) + DeleteChar(b, c)
  {
    if a == [] {
      assert a + b == b;
    } else {
      assert (a + b)[0] == a[0];
      assert (a + b)[1..] == a[1..] + b;
      DeleteCharAppend(a[1..], b, c);
    }
  }

  /** On one character, deleting `c` drops it exactly when it is `c`. */
  lemma DeleteCharSingle(x: char, c: char)
    ensures DeleteChar([x], c) == if x == c then [] else [x]
  {
    assert [x][1..] == [];
  }

  /** `_normalize_datetime`: False for a falsy value, otherwise the value
      with every 'T' turned into a space and every 'Z' dropped. */
  function NormalizeDatetime(value: Option<string>): (r: Option<string>)
    ensures r.None? <==> !Truthy(value)
    ensures r.Some? ==> 'T' !in r.value && 'Z' !in r.value
    ensures r.Some? ==> |r.value| + Occurrences(value.value, 'Z') == |value.value|
    ensures r.Some? ==> forall x :: x != 'T' && x != 'Z' && x != ' ' ==>
                          (x in r.value <==> x in value.value)
    ensures r.Some? ==> r.value == DeleteChar(ReplaceChar(value.value, 'T', ' '), 'Z')
  {
    if !Truthy(value) then None
    else
      var spaced := ReplaceChar(value.value, 'T', ' ');
      assert Occurrences(spaced, 'Z') == Occurrences(value.value, 'Z') by {
        SameOccurrences(spaced, value.value, 'Z');
      }
      assert forall x :: x != 'T' && x != ' ' ==> (x in spaced <==> x in value.value) by {
        forall x | x != 'T' && x != ' '
          ensures x in spaced <==> x in value.value
        {
          if x in value.value {
            var i :| 0 <= i < |value.value| && value.value[i] == x;
            assert spaced[i] == x;
          }
        }
      }
      Some(DeleteChar(spaced, 'Z'))
  }

  /** A date-time text normalises piece by piece: each 'T' turns into a
      space where it stands and each 'Z' is dropped, whatever surrounds it. */
  lemma NormalizeDatetimeAppend(a: string, b: string)
    requires a != [] && b != []
    ensures NormalizeDatetime(Some(a + b)).value
            == NormalizeDatetime(Some(a)).value + NormalizeDatetime(Some(b)).value
  {
    ReplaceCharAppend(a, b, 'T', ' ');
    DeleteCharAppend(ReplaceChar(a, 'T', ' '), ReplaceChar(b, 'T', ' '), 'Z');
  }

  /** One character normalises to a space for 'T', nothing for 'Z', and
      itself otherwise. */
  lemma NormalizeDatetimeChar(x: char)
    ensures NormalizeDatetime(Some([x])).value == if x == 'T' then " " else if x == 'Z' then "" else [x]
  {
    var spaced := ReplaceChar([x], 'T', ' ');
    assert spaced == [if x == 'T' then ' ' else x];
    DeleteCharSingle(spaced[0], 'Z');
  }

  /** Two strings that differ only where neither holds `c` have as many `c`s. */
  lemma {:induction false} SameOccurrences(s: string, t: string, c: char)
    requires |s| == |t|
    requires forall i :: 0 <= i < |s| ==> (s[i] == c <==> t[i] == c)
    ensures Occurrences(s, c) == Occurrences(t, c)
  {
    if s != [] {
      SameOccurrences(s[1..], t[1..], c);
    }
  }

  /** A normalised date-time that is not empty normalises to itself. */
  lemma NormalizeDatetimeIdempotent(value: Option<string>)
    requires Truthy(NormalizeDatetime(value))
    ensures NormalizeDatetime(NormalizeDatetime(value)) == NormalizeDatetime(value)
  {
    var r := NormalizeDatetime(value).value;
    assert ReplaceChar(r, 'T', ' ') == r;
  }

  /** An ISO 8601 UTC stamp becomes the space-separated form. */
  lemma NormalizeDatetimeExample()
    ensures NormalizeDatetime(Some("2024-01-31T10:20:30Z")) == Some("2024-01-31 10:20:30")
  {
    var s := "2024-01-31T10:20:30Z";
    var spaced := ReplaceChar(s, 'T', ' ');
    assert spaced == "2024-01-31 10:20:30Z";
    assert DeleteChar(spaced, 'Z') == "2024-01-31 10:20:30" by {
      assert spaced == "2024-01-31 10:20:30" + "Z";
      DeleteTail("2024-01-31 10:20:30", 'Z');
    }
  }

  /** Deleting `c` from `s + [c]` where `s` has no `c` leaves `s`. */
  lemma {:induction false} DeleteTail(s: string, c: char)
    requires c !in s
    ensures DeleteChar(s + [c], c) == s
  {
    if s != [] {
      assert (s + [c])[1..] == s[1..] + [c];
      DeleteTail(s[1..], c);
    } else {
      assert [c][1..] == [];
    }
  }

  // ---------------------------------------------------------------------
  // Service result

  /** Which call failed, selecting the error message. */
  datatype Query = TaxpayerListQuery | TaxIdCheckQuery

  datatype UserError =
    | ServiceFailure(query: Query, code: string, description: string)
    | MissingWebServiceUrl
    | MissingCredentials
    | MissingTicket

  /** A `ServiceResult` text is a failure when it is present and is not
      'successful' in any letter case. */
  predicate ServiceFailed(serviceResult: string) {
    serviceResult != "" && Lower(serviceResult) != "successful"
  }

  /** The status check shared by the three service calls: a failing result
      raises with the error code and description, '-' standing in for
      either when empty. */
  function CheckServiceResult(query: Query, serviceResult: string, code: string, description: string)
    : (r: Result<(), UserError>)
    ensures r.Failure? <==> ServiceFailed(serviceResult)
    ensures r.Failure? ==> r.error.ServiceFailure? && r.error.query == query
    ensures r.Failure? ==> r.error.code != "" && r.error.description != ""
    ensures r.Failure? && code != "" ==> r.error.code == code
    ensures r.Failure? && description != "" ==> r.error.description == description
    ensures r.Failure? && code == "" ==> r.error.code == "-"
    ensures r.Failure? && description == "" ==> r.error.description == "-"
  {
    if ServiceFailed(serviceResult) then
      Failure(ServiceFailure(query, OrDash(code), OrDash(description)))
    else
      Success(())
  }

  /** The outcome depends on the result text only through its lower-case form. */
  lemma ServiceCheckIgnoresCase(query: Query, a: string, b: string, code: string, description: string)
    requires Lower(a) == Lower(b)
    ensures CheckServiceResult(query, a, code, description) == CheckServiceResult(query, b, code, description)
  {
    assert a == "" <==> b == "";
  }

  lemma ServiceCheckExamples(query: Query)
    ensures CheckServiceResult(query, "", "", "").Success?
    ensures CheckServiceResult(query, "Successful", "", "").Success?
    ensures CheckServiceResult(query, "SUCCESSFUL", "", "").Success?
    ensures CheckServiceResult(query, "Failed", "", "E1") == Failure(ServiceFailure(query, "-", "E1"))
    ensures CheckServiceResult(query, " successful", "", "").Failure?
  {
    assert Lower("Successful") == "successful";
    assert Lower("SUCCESSFUL") == "successful";
    assert Lower("Failed")[0] == 'f';
    assert Lower(" successful")[0] == ' ';
  }

  /** The opening words of a failed call's message. */
  function FailureHeading(query: Query): string {
    match query
    case TaxpayerListQuery => "Mükellef sorgusu başarısız oldu. Hata Kodu: "
    case TaxIdCheckQuery => "Mükelleflik kontrolü başarısız oldu. Hata Kodu: "
  }

  const MissingUrlText := "Web Service URL alanı zorunludur."
  const MissingCredentialsText := "Şirket Kodu, API Kullanıcı Adı ve API Şifre alanları zorunludur."
  const MissingTicketText := "Ticket bilgisi SOAP cevabında bulunamadı."

  /** The user-facing text of an error, untranslated. A failed call's
      message opens with the call's heading and ends with the code, the
      description label and the description, with nothing in between. */
  function Message(e: UserError): (m: string)
    ensures e.ServiceFailure? ==> StartsWith(m, FailureHeading(e.query))
    ensures e.ServiceFailure? ==> EndsWith(m, e.code + " Açıklama: " + e.description)
    ensures e.ServiceFailure? ==> |m| == |FailureHeading(e.query)| + |e.code + " Açıklama: " + e.description|
    ensures e == MissingWebServiceUrl ==> m == MissingUrlText
    ensures e == MissingCredentials ==> m == MissingCredentialsText
    ensures e == MissingTicket ==> m == MissingTicketText
  {
    match e
    case ServiceFailure(query, code, description) =>
      var tail := code + " Açıklama: " + description;
      ConcatStartsEnds(FailureHeading(query), tail);
      FailureHeading(query) + tail
    case MissingWebServiceUrl => MissingUrlText
    case MissingCredentials => MissingCredentialsText
    case MissingTicket => MissingTicketText
  }

  // ---------------------------------------------------------------------
  // Integration record

  /** The `type` selection of an integration record. */
  datatype IntegrationType = Efatura | Earsiv | Eirsaliye {
    /** The stored selection key. */
    function Code(): string {
      match this
      case Efatura => "1"
      case Earsiv => "2"
      case Eirsaliye => "3"
    }
  }

  /** The fields of an integration record this model reads; Char fields
      are None when unset. */
  datatype Integration = Integration(
    kind: IntegrationType,
    webServiceUrl: Option<string>,
    sirketKodu: Option<string>,
    apiUserName: Option<string>,
    apiPassword: Option<string>)

  predicate IsDigit(c: char) {
    '0' <= c <= '9'
  }

  predicate AllDigits(s: string) {
    forall i :: 0 <= i < |s| ==> IsDigit(s[i])
  }

  /** The number a string of decimal digits spells, most significant first. */
  function DigitsValue(s: string): nat
    requires AllDigits(s)
  {
    if s == [] then 0
    else DigitsValue(s[..|s| - 1]) * 10 + (s[|s| - 1] as int - '0' as int)
  }

  /** The decimal spelling of `n`, without leading zeros. */
  function Decimal(n: nat): (s: string)
    ensures s != [] && AllDigits(s)
    ensures |s| > 1 ==> s[0] != '0'
  {
    if n < 10 then ['0' + n as char]
    else Decimal(n / 10) + ['0' + (n % 10) as char]
  }

  /** The e-invoice type number: the type key read as a decimal number when
      it is non-empty and made only of digits, otherwise None standing for
      False. */
  function ParseEinvoiceType(typ: Option<string>): (r: Option<nat>)
    ensures r.Some? <==> Truthy(typ) && AllDigits(typ.value)
  {
    if Truthy(typ) && AllDigits(typ.value) then Some(DigitsValue(typ.value)) else None
  }

  /** Parsing undoes decimal spelling. */
  lemma {:induction false} ParseDecimal(n: nat)
    ensures ParseEinvoiceType(Some(Decimal(n))) == Some(n)
  {
    DigitsOfDecimal(n);
  }

  lemma {:induction false} DigitsOfDecimal(n: nat)
    ensures DigitsValue(Decimal(n)) == n
  {
    if n >= 10 {
      var s := Decimal(n);
      assert s[..|s| - 1] == Decimal(n / 10);
      DigitsOfDecimal(n / 10);
    }
  }

  /** Leading zeros are accepted; text with any non-digit is not a number. */
  lemma ParseEinvoiceTypeExamples()
    ensures ParseEinvoiceType(Some("007")) == Some(7)
    ensures ParseEinvoiceType(Some("")) == None
    ensures ParseEinvoiceType(None) == None
    ensures ParseEinvoiceType(Some(" 1")) == None
    ensures ParseEinvoiceType(Some("-1")) == None
  {
    assert "007"[..2] == "00" && "00"[..1] == "0" && "0"[..0] == "";
    assert !IsDigit(" 1"[0]);
    assert !IsDigit("-1"[0]);
  }

  /** The e-invoice type number stored with imported taxpayers is the
      integration type's key read as a number: 1, 2 or 3. */
  function EinvoiceType(integration: Integration): (r: Option<nat>)
    ensures r.Some? && 1 <= r.value <= 3
    ensures r == Some(1) <==> integration.kind == Efatura
    ensures r.Some? && Decimal(r.value) == integration.kind.Code()
  {
    var code := integration.kind.Code();
    assert |code| == 1 && code[..0] == "";
    assert DigitsValue(code) == code[0] as int - '0' as int;
    ParseEinvoiceType(Some(code))
  }

  /** The numbers the three integration types store. */
  lemma EinvoiceTypeNumbers(integration: Integration)
    ensures EinvoiceType(integration) == Some(match integration.kind
                                              case Efatura => 1
                                              case Earsiv => 2
                                              case Eirsaliye => 3)
  {
  }

  /** `_import_taxpayer_list` refuses to call the service without a URL,
      or without the company code, user name and password. */
  function CheckImportSettings(integration: Integration): (r: Result<(), UserError>)
    ensures r == Failure(MissingWebServiceUrl) <==> !Truthy(integration.webServiceUrl)
    ensures r == Failure(MissingCredentials) <==>
              Truthy(integration.webServiceUrl) &&
              !(Truthy(integration.sirketKodu) && Truthy(integration.apiUserName) && Truthy(integration.apiPassword))
    ensures r.Success? || r == Failure(MissingWebServiceUrl) || r == Failure(MissingCredentials)
  {
    if !Truthy(integration.webServiceUrl) then Failure(MissingWebServiceUrl)
    else if !Truthy(integration.sirketKodu) || !Truthy(integration.apiUserName) || !Truthy(integration.apiPassword) then
      Failure(MissingCredentials)
    else Success(())
  }

  /** `_get_forms_authentication_ticket` after the call: the stripped text of
      the ticket element, or an error when it is missing or has no text. */
  function TicketFrom(found: Option<string>): (r: Result<string, UserError>)
    ensures r.Failure? <==> !Truthy(found)
    ensures r.Failure? ==> r.error == MissingTicket
    ensures r.Success? ==> Trimmed(r.value) && (r.value == "" <==> AllSpace(found.value))
  {
    if !Truthy(found) then Failure(MissingTicket) else Success(Strip(found.value))
  }

  /** The ticket is read exactly as `_get_node_text` reads a field. */
  lemma TicketIsNodeText(found: Option<string>)
    ensures TicketFrom(found) == GetNodeText(found).ToResult(MissingTicket)
  {
  }
}

=== FILE: pystr.dfy ===
/** The few Python `str` operations the module relies on: truthiness,
    `strip()` with no argument, and `lower()`. */
module PyStr {
  import opened Wrappers

  /** `str.isspace()` for one character: the ASCII whitespace and separator
      controls, NEL, and the Unicode space and line/paragraph separators. */
  predicate IsSpace(c: char) {
    || ('\t' <= c <= '\r')
    || ('\U{1c}' <= c <= '\U{1f}')
    || c == ' '
    || c == '\U{85}'
    || c == '\U{a0}'
    || c == '\U{1680}'
    || ('\U{2000}' <= c <= '\U{200a}')
    || c == '\U{2028}'
    || c == '\U{2029}'
    || c == '\U{202f}'
    || c == '\U{205f}'
    || c == '\U{3000}'
  }

  predicate AllSpace(s: string) {
    forall i :: 0 <= i < |s| ==> IsSpace(s[i])
  }

  /** Neither end of `s` is whitespace. */
  predicate Trimmed(s: string) {
    s == [] || (!IsSpace(s[0]) && !IsSpace(s[|s| - 1]))
  }

  /** A Python value that is a non-empty string (anything else is falsy). */
  predicate Truthy(v: Option<string>) {
    v.Some? && v.value != ""
  }

  /** `s.startswith(p)` */
  predicate StartsWith(s: string, p: string) {
    |p| <= |s| && s[..|p|] == p
  }

  /** `s.endswith(p)` */
  predicate EndsWith(s: string, p: string) {
    |p| <= |s| && s[|s| - |p|..] == p
  }

  /** A concatenation starts with its first part and ends with its second. */
  lemma ConcatStartsEnds(a: string, b: string)
    ensures StartsWith(a + b, a) && EndsWith(a + b, b)
  {
    assert (a + b)[..|a|] == a;
    assert (a + b)[|a + b| - |b|..] == b;
  }

  /** `v or ''` */
  function OrEmpty(v: Option<string>): string {
    v.GetOr("")
  }

  /** `s or '-'` */
  function OrDash(s: string): (r: string)
    ensures r != ""
    ensures s != "" ==> r == s
  {
    if s == "" then "-" else s
  }

  /** The first index at or after `i` that is not whitespace, or `|s|`. */
  function SkipSpaces(s: string, i: nat): (k: nat)
    requires i <= |s|
    ensures i <= k <= |s|
    ensures forall j :: i <= j < k ==> IsSpace(s[j])
    ensures k == |s| || !IsSpace(s[k])
    decreases |s| - i
  {
    if i == |s| || !IsSpace(s[i]) then i else SkipSpaces(s, i + 1)
  }

  /** The end of `s[lo..e]` once its trailing whitespace is dropped. */
  function DropTrailingSpaces(s: string, lo: nat, e: nat): (k: nat)
    requires lo <= e <= |s|
    ensures lo <= k <= e
    ensures forall j :: k <= j < e ==> IsSpace(s[j])
    ensures k == lo || !IsSpace(s[k - 1])
    decreases e
  {
    if e == lo || !IsSpace(s[e - 1]) then e else DropTrailingSpaces(s, lo, e - 1)
  }

  /** `s` splits as `k` whitespace characters, `r`, and whitespace. */
  ghost predicate StripsTo(s: string, k: int, r: string) {
    && 0 <= k <= k + |r| <= |s|
    && s[k..k + |r|] == r
    && (forall j :: 0 <= j < k ==> IsSpace(s[j]))
    && (forall j :: k + |r| <= j < |s| ==> IsSpace(s[j]))
  }

  /** `s.strip()`: `s` is some whitespace, then `r`, then some whitespace,
      and `r` neither starts nor ends with whitespace. */
  function Strip(s: string): (r: string)
    ensures Trimmed(r)
    ensures StripsTo(s, SkipSpaces(s, 0), r)
    ensures r == [] <==> AllSpace(s)
  {
    var lo := SkipSpaces(s, 0);
    var hi := DropTrailingSpaces(s, lo, |s|);
    assert lo < hi ==> !IsSpace(s[lo]);
    s[lo..hi]
  }

  /** Stripping a string that has no surrounding whitespace leaves it as is. */
  lemma StripTrimmed(s: string)
    requires Trimmed(s)
    ensures Strip(s) == s
  {
    if s != [] {
      StripUnique(s, 0, s);
    }
  }

  lemma StripIdempotent(s: string)
    ensures Strip(Strip(s)) == Strip(s)
  {
    StripTrimmed(Strip(s));
  }

  /** Strip is determined by any split of `s` into surrounding whitespace
      and a non-empty trimmed middle. */
  lemma StripUnique(s: string, k: int, r: string)
    requires r != [] && Trimmed(r) && StripsTo(s, k, r)
    ensures Strip(s) == r
  {
    var t := Strip(s);
    var e := k + |r|;
    assert !IsSpace(s[k]) && !IsSpace(s[e - 1]) by {
      assert s[k] == s[k..e][0] && s[e - 1] == s[k..e][|r| - 1];
    }
    assert SkipSpaces(s, 0) == k;
    assert t != [] by {
      assert !AllSpace(s) by { assert !IsSpace(s[k]); }
    }
    var e' := k + |t|;
    assert !IsSpace(s[e' - 1]) by {
      assert s[e' - 1] == s[k..e'][|t| - 1];
    }
    assert e' == e;
  }

  /** Whitespace around a trimmed, non-empty word is what strip removes. */
  lemma StripPadding(before: string, word: string, after: string)
    requires AllSpace(before) && AllSpace(after) && word != [] && Trimmed(word)
    ensures Strip(before + word + after) == word
  {
    var s := before + word + after;
    var k := |before|;
    assert forall j :: 0 <= j < k ==> s[j] == before[j];
    assert forall j :: k + |word| <= j < |s| ==> s[j] == after[j - k - |word|];
    assert s[k..k + |word|] == word;
    StripUnique(s, k, word);
  }

  function LowerChar(c: char): char {
    if 'A' <= c <= 'Z' then (c as int - 'A' as int + 'a' as int) as char else c
  }

  /** `s.lower()` on the ASCII letters. */
  function Lower(s: string): (r: string)
    ensures |r| == |s|
    ensures forall i :: 0 <= i < |s| ==> r[i] == LowerChar(s[i])
  {
    seq(|s|, i requires 0 <= i < |s| => LowerChar(s[i]))
  }
}

=== FILE: res_partner.dfy ===
/** The checks the partner's "check customer tax id" action makes before
    calling the service (models/res_partner.py): which tax id is sent and
    which integration record sends it. */
module ResPartner {
  import opened Wrappers
  import opened PyStr
  import opened EdevletIntegration

  /** The partner fields the action reads; unset Char fields are None. */
  datatype Partner = Partner(vergiNo: Option<string>, vat: Option<string>)

  datatype PartnerError = MissingTaxId | MissingEfaturaIntegration

  const MissingTaxIdText := "Müşteri kartında Vergi No/VAT bilgisi bulunamadı."
  const MissingEfaturaText := "Mükelleflik kontrolü için EFATURA tipinde entegrasyon tanımı bulunamadı."

  /** The user-facing text of an error, untranslated. */
  function Message(e: PartnerError): (m: string)
    ensures e == MissingTaxId ==> m == MissingTaxIdText
    ensures e == MissingEfaturaIntegration ==> m == MissingEfaturaText
  {
    match e
    case MissingTaxId => MissingTaxIdText
    case MissingEfaturaIntegration => MissingEfaturaText
  }

  /** The tax id sent to the service: the Vergi No when it is set and
      non-empty, otherwise the VAT, stripped of surrounding whitespace.
      The fallback is decided before stripping. */
  function SelectTaxId(p: Partner): (r: string)
    ensures Trimmed(r)
    ensures Truthy(p.vergiNo) ==> r == Strip(p.vergiNo.value)
    ensures !Truthy(p.vergiNo) && Truthy(p.vat) ==> r == Strip(p.vat.value)
    ensures r == "" <==> AllSpace(if Truthy(p.vergiNo) then p.vergiNo.value else OrEmpty(p.vat))
  {
    var raw := if Truthy(p.vergiNo) then p.vergiNo.value else if Truthy(p.vat) then p.vat.value else "";
    Strip(raw)
  }

  /** A Vergi No of only whitespace still wins over the VAT, so the partner
      is reported as having no tax id at all. */
  lemma BlankVergiNoShadowsVat(p: Partner)
    requires p.vergiNo.Some? && p.vergiNo.value != "" && AllSpace(p.vergiNo.value)
    ensures SelectTaxId(p) == ""
    ensures PrepareTaxIdCheck(p, []).Failure? && PrepareTaxIdCheck(p, []).error == MissingTaxId
  {
  }

  /** The index of the first e-invoice (type '1') integration, the record
      `search(..., limit=1)` returns. */
  function FirstEfatura(integrations: seq<Integration>): (r: Option<nat>)
    ensures r.Some? ==> r.value < |integrations| && integrations[r.value].kind == Efatura
    ensures r.Some? ==> forall j :: 0 <= j < r.value ==> integrations[j].kind != Efatura
    ensures r.None? <==> forall j :: 0 <= j < |integrations| ==> integrations[j].kind != Efatura
  {
    if |integrations| == 0 then None
    else if integrations[0].kind == Efatura then Some(0)
    else
      match FirstEfatura(integrations[1..])
      case None => None
      case Some(k) => Some(k + 1)
  }

  /** The precondition checks of `action_check_customer_tax_id`: a missing
      tax id is reported before any integration lookup, then the first
      e-invoice integration is chosen. */
  function PrepareTaxIdCheck(p: Partner, integrations: seq<Integration>): (r: Result<(string, Integration), PartnerError>)
    ensures r == Failure(MissingTaxId) <==> SelectTaxId(p) == ""
    ensures r == Failure(MissingEfaturaIntegration)
        <==> SelectTaxId(p) != "" && forall j :: 0 <= j < |integrations| ==> integrations[j].kind != Efatura
    ensures r.Success? ==> r.value.0 == SelectTaxId(p) && r.value.0 != "" && Trimmed(r.value.0)
    ensures r.Success? ==> r.value.1.kind == Efatura
  {
    var taxId := SelectTaxId(p);
    if taxId == "" then Failure(MissingTaxId)
    else
      match FirstEfatura(integrations)
      case None => Failure(MissingEfaturaIntegration)
      case Some(k) => Success((taxId, integrations[k]))
  }

  /** The integration chosen is the first e-invoice one: earlier records of
      other types, and later e-invoice records, are not used. */
  lemma ChosenIntegrationIsFirst(p: Partner, integrations: seq<Integration>, k: nat)
    requires SelectTaxId(p) != ""
    requires k < |integrations| && integrations[k].kind == Efatura
    requires forall j :: 0 <= j < k ==> integrations[j].kind != Efatura
    ensures PrepareTaxIdCheck(p, integrations) == Success((SelectTaxId(p), integrations[k]))
  {
    assert FirstEfatura(integrations).Some?;
  }

  /** Adding integration records after an e-invoice one does not change
      which record is used. */
  lemma LaterIntegrationsIgnored(p: Partner, integrations: seq<Integration>, more: seq<Integration>)
    requires FirstEfatura(integrations).Some?
    ensures PrepareTaxIdCheck(p, integrations + more) == PrepareTaxIdCheck(p, integrations)
  {
    var k := FirstEfatura(integrations).value;
    var all := integrations + more;
    assert all[k] == integrations[k];
    if SelectTaxId(p) != "" {
      ChosenIntegrationIsFirst(p, all, k);
    }
  }
}

=== FILE: taxpayer_import.dfy ===
/** Folding taxpayer entries returned by the e-invoice service into the
    `einvoice.company.import` records (models/edevletintegration.py). The
    record store is the sequence of records in creation order, so the ORM's
    `search(domain, limit=1)` is the first record the domain matches. */
module TaxpayerImport {
  import opened Wrappers
  import opened PyStr
  import opened EdevletIntegration

  /** One `EInvoiceCustomerResult` element: the `findtext` value of each child
      the module reads. */
  datatype CustomerResult = CustomerResult(
    taxIdOrPersonalId: Option<string>,
    alias: Option<string>,
    typ: Option<string>,
    name: Option<string>,
    registerTime: Option<string>,
    aliasCreateDate: Option<string>,
    isExist: Option<string>)

  /** One `einvoice.company.import` record; None stands for False. */
  datatype TaxpayerRecord = TaxpayerRecord(
    taxNo: string,
    alias: Option<string>,
    typ: Option<string>,
    companyFullname: Option<string>,
    registerDate: Option<string>,
    aliasCreationDate: Option<string>,
    einvoiceType: Option<nat>)

  /** The three code paths that read an entry differ in how they read its
      fields: the streaming import, the tax-id check, and `_upsert_taxpayers`. */
  datatype Reader = Streamed | Checked | NodeText

  /** The tax number and alias are the lookup key. */
  datatype Key = Key(taxNo: string, alias: Option<string>)

  function KeyOf(r: TaxpayerRecord): Key {
    Key(r.taxNo, r.alias)
  }

  /** An entry is processed exactly when its tax number has a non-blank text. */
  predicate HasTaxNo(e: CustomerResult) {
    !AllSpace(OrEmpty(e.taxIdOrPersonalId))
  }

  /** How a reader takes the tax number: a falsy result (None here)
      means the entry is skipped. */
  function ReadTaxNo(reader: Reader, found: Option<string>): (r: Option<string>)
    ensures r.Some? <==> !AllSpace(OrEmpty(found))
    ensures r.Some? ==> r.value != "" && r.value == Strip(OrEmpty(found))
  {
    match reader
    case Streamed =>
      var taxNo := Strip(OrEmpty(found));
      if taxNo == "" then None else Some(taxNo)
    case Checked => NormalizeNodeText(found)
    case NodeText =>
      var taxNo := GetNodeText(found);
      if !Truthy(taxNo) then None else taxNo
  }

  /** How a reader takes the alias: the streaming import keeps a blank
      alias as '', the tax-id check turns it into False, and
      `_upsert_taxpayers` gives '' for blank text and False for none. */
  function ReadAlias(reader: Reader, found: Option<string>): (r: Option<string>)
    ensures Truthy(r) <==> !AllSpace(OrEmpty(found))
    ensures Truthy(r) ==> r.value == Strip(OrEmpty(found))
    ensures reader == Streamed ==> r.Some?
    ensures !Truthy(r) ==> (r == Some("") <==> reader == Streamed || (reader == NodeText && Truthy(found)))
  {
    match reader
    case Streamed => Some(Strip(OrEmpty(found)))
    case Checked => NormalizeNodeText(found)
    case NodeText => GetNodeText(found)
  }

  /** How a reader takes the other text fields: `_upsert_taxpayers` gives
      '' for blank text and False for none, the other two give False for both. */
  function ReadText(reader: Reader, found: Option<string>): (r: Option<string>)
    ensures r.Some? ==> Trimmed(r.value) && r.value == Strip(OrEmpty(found))
    ensures Truthy(r) <==> !AllSpace(OrEmpty(found))
    ensures !Truthy(r) ==> (r == Some("") <==> reader == NodeText && Truthy(found))
  {
    if reader == NodeText then GetNodeText(found) else NormalizeNodeText(found)
  }

  /** The values an entry writes, or None when its tax number is falsy and
      the entry is skipped. */
  function ReadEntry(reader: Reader, e: CustomerResult, einvoiceType: Option<nat>): (r: Option<TaxpayerRecord>)
    ensures r.Some? <==> HasTaxNo(e)
    ensures r.Some? ==> r.value.taxNo != "" && r.value.taxNo == Strip(OrEmpty(e.taxIdOrPersonalId))
    ensures r.Some? ==> r.value.einvoiceType == einvoiceType
    ensures r.Some? ==> Truthy(r.value.alias) == !AllSpace(OrEmpty(e.alias))
    ensures r.Some? ==> r.value.alias == ReadAlias(reader, e.alias)
    ensures r.Some? ==> r.value.typ == ReadText(reader, e.typ)
    ensures r.Some? ==> r.value.companyFullname == ReadText(reader, e.name)
    ensures r.Some? ==> r.value.registerDate == NormalizeDatetime(ReadText(reader, e.registerTime))
    ensures r.Some? ==> r.value.aliasCreationDate == NormalizeDatetime(ReadText(reader, e.aliasCreateDate))
  {
    match ReadTaxNo(reader, e.taxIdOrPersonalId)
    case None => None
    case Some(taxNo) =>
      Some(TaxpayerRecord(
        taxNo,
        ReadAlias(reader, e.alias),
        ReadText(reader, e.typ),
        ReadText(reader, e.name),
        NormalizeDatetime(ReadText(reader, e.registerTime)),
        NormalizeDatetime(ReadText(reader, e.aliasCreateDate)),
        einvoiceType))
  }

  // ---------------------------------------------------------------------
  // Lookup

  /** The search domain: the tax number, plus the alias only when the
      alias is non-empty. */
  predicate Matches(r: TaxpayerRecord, k: Key)
    ensures Matches(r, k) ==> r.taxNo == k.taxNo
    ensures Truthy(k.alias) ==> (Matches(r, k) <==> r.taxNo == k.taxNo && r.alias == k.alias)
    ensures !Truthy(k.alias) ==> (Matches(r, k) <==> r.taxNo == k.taxNo)
  {
    r.taxNo == k.taxNo && (!Truthy(k.alias) || r.alias == k.alias)
  }

  /** `search(domain, limit=1)`: the position of the first matching record. */
  function FindFirst(store: seq<TaxpayerRecord>, k: Key): (r: Option<nat>)
    ensures r.Some? ==> r.value < |store| && Matches(store[r.value], k)
    ensures r.Some? ==> forall j :: 0 <= j < r.value ==> !Matches(store[j], k)
    ensures r.None? <==> forall j :: 0 <= j < |store| ==> !Matches(store[j], k)
  {
    FindFrom(store, k, 0)
  }

  function FindFrom(store: seq<TaxpayerRecord>, k: Key, i: nat): (r: Option<nat>)
    requires i <= |store|
    requires forall j :: 0 <= j < i ==> !Matches(store[j], k)
    ensures r.Some? ==> i <= r.value < |store| && Matches(store[r.value], k)
    ensures r.Some? ==> forall j :: 0 <= j < r.value ==> !Matches(store[j], k)
    ensures r.None? <==> forall j :: 0 <= j < |store| ==> !Matches(store[j], k)
    decreases |store| - i
  {
    if i == |store| then None
    else if Matches(store[i], k) then Some(i)
    else FindFrom(store, k, i + 1)
  }

  // ---------------------------------------------------------------------
  // Upsert

  /** Writes `rec` over the first record its key matches, or creates it.
      The store grows by one exactly when nothing matched, and then `rec`
      is the new last record; otherwise one matching record, the first,
      is overwritten and every other record is left alone. */
  function Upsert(store: seq<TaxpayerRecord>, rec: TaxpayerRecord): (r: seq<TaxpayerRecord>)
    ensures |r| == |store| || |r| == |store| + 1
    ensures |r| == |store| + 1 <==> forall j :: 0 <= j < |store| ==> !Matches(store[j], KeyOf(rec))
    ensures |r| == |store| + 1 ==> r == store + [rec]
    ensures forall j :: 0 <= j < |store| ==>
              r[j] == store[j] ||
              (r[j] == rec && Matches(store[j], KeyOf(rec)) &&
               forall i :: 0 <= i < j ==> !Matches(store[i], KeyOf(rec)))
    ensures rec in r
  {
    match FindFirst(store, KeyOf(rec))
    case Some(i) => store[i := rec]
    case None => store + [rec]
  }

  /** After an upsert, looking the record's key up finds the record. */
  lemma UpsertThenFind(store: seq<TaxpayerRecord>, rec: TaxpayerRecord)
    ensures var i := FindFirst(Upsert(store, rec), KeyOf(rec));
            i.Some? && Upsert(store, rec)[i.value] == rec
  {
    var r := Upsert(store, rec);
    assert Matches(rec, KeyOf(rec));
    match FindFirst(store, KeyOf(rec))
    case Some(i) =>
      assert r[i] == rec;
      assert forall j :: 0 <= j < i ==> r[j] == store[j];
    case None =>
      assert r[|store|] == rec;
  }

  /** Upserting the same values twice is the same as once. */
  lemma UpsertIdempotent(store: seq<TaxpayerRecord>, rec: TaxpayerRecord)
    ensures Upsert(Upsert(store, rec), rec) == Upsert(store, rec)
  {
    var r := Upsert(store, rec);
    UpsertThenFind(store, rec);
    var i := FindFirst(r, KeyOf(rec)).value;
    assert r[i := rec] == r;
  }

  /** An entry without an alias is matched on its tax number alone, so it
      overwrites a stored record with the same tax number whatever that
      record's alias, and the stored alias is lost. */
  lemma AliasLessEntryOverwritesAlias(stored: TaxpayerRecord, rec: TaxpayerRecord)
    requires stored.taxNo == rec.taxNo && Truthy(stored.alias) && !Truthy(rec.alias)
    ensures Upsert([stored], rec) == [rec]
  {
    assert Matches(stored, KeyOf(rec));
  }

  /** An entry with an alias matches no record whose alias differs, so a
      second alias of one tax number makes a second record. */
  lemma NewAliasAppends(stored: TaxpayerRecord, rec: TaxpayerRecord)
    requires stored.taxNo == rec.taxNo && Truthy(rec.alias) && stored.alias != rec.alias
    ensures Upsert([stored], rec) == [stored, rec]
  {
    assert !Matches(stored, KeyOf(rec));
  }

  // ---------------------------------------------------------------------
  // Folding a sequence of entries

  /** The number of entries with a tax number. */
  function CountWithTaxNo(entries: seq<CustomerResult>): (n: nat)
    ensures n <= |entries|
  {
    if entries == [] then 0
    else CountWithTaxNo(entries[..|entries| - 1]) + (if HasTaxNo(entries[|entries| - 1]) then 1 else 0)
  }

  /** One entry: skipped when its tax number is falsy, otherwise upserted. */
  function Step(reader: Reader, store: seq<TaxpayerRecord>, e: CustomerResult, einvoiceType: Option<nat>)
    : seq<TaxpayerRecord>
  {
    match ReadEntry(reader, e, einvoiceType)
    case None => store
    case Some(rec) => Upsert(store, rec)
  }

  /** The store after upserting `entries` in order, and how many were
      processed; every processed entry is counted, whether it updated or
      created a record, and the store grows by at most one per entry. */
  function ImportAll(reader: Reader, store: seq<TaxpayerRecord>, entries: seq<CustomerResult>, einvoiceType: Option<nat>)
    : (r: (seq<TaxpayerRecord>, nat))
    ensures r.1 == CountWithTaxNo(entries)
    ensures |store| <= |r.0| <= |store| + r.1
  {
    if entries == [] then (store, 0)
    else
      var prev := ImportAll(reader, store, entries[..|entries| - 1], einvoiceType);
      var e := entries[|entries| - 1];
      (Step(reader, prev.0, e, einvoiceType), prev.1 + (if HasTaxNo(e) then 1 else 0))
  }

  /** Importing one more entry is one more step. */
  lemma ImportSnoc(reader: Reader, store: seq<TaxpayerRecord>, entries: seq<CustomerResult>, e: CustomerResult,
                   einvoiceType: Option<nat>)
    ensures ImportAll(reader, store, entries + [e], einvoiceType).0 ==
              Step(reader, ImportAll(reader, store, entries, einvoiceType).0, e, einvoiceType)
    ensures ImportAll(reader, store, entries + [e], einvoiceType).1 ==
              ImportAll(reader, store, entries, einvoiceType).1 + (if HasTaxNo(e) then 1 else 0)
  {
    var xs := entries + [e];
    assert xs[..|xs| - 1] == entries;
    assert xs[|xs| - 1] == e;
  }

  /** An entry whose tax number is blank leaves the store as it is. */
  lemma BlankEntryChangesNothing(reader: Reader, store: seq<TaxpayerRecord>, e: CustomerResult, einvoiceType: Option<nat>)
    requires !HasTaxNo(e)
    ensures ImportAll(reader, store, [e], einvoiceType) == (store, 0)
  {
    assert [e][..0] == [];
  }

  /** After the import, the last entry's values are what its key finds. */
  lemma LastEntryWins(reader: Reader, store: seq<TaxpayerRecord>, entries: seq<CustomerResult>, einvoiceType: Option<nat>)
    requires entries != [] && HasTaxNo(entries[|entries| - 1])
    ensures var rec := ReadEntry(reader, entries[|entries| - 1], einvoiceType).value;
            var s := ImportAll(reader, store, entries, einvoiceType).0;
            var i := FindFirst(s, KeyOf(rec));
            i.Some? && s[i.value] == rec
  {
    var prev := ImportAll(reader, store, entries[..|entries| - 1], einvoiceType);
    UpsertThenFind(prev.0, ReadEntry(reader, entries[|entries| - 1], einvoiceType).value);
  }

  /** The three readers skip the same entries and store the same tax number. */
  lemma ReadersAgreeOnTaxNo(e: CustomerResult, einvoiceType: Option<nat>)
    ensures ReadEntry(Streamed, e, einvoiceType).Some? == ReadEntry(Checked, e, einvoiceType).Some?
                                                     == ReadEntry(NodeText, e, einvoiceType).Some?
    ensures HasTaxNo(e) ==>
              ReadEntry(Streamed, e, einvoiceType).value.taxNo == ReadEntry(Checked, e, einvoiceType).value.taxNo
                                                               == ReadEntry(NodeText, e, einvoiceType).value.taxNo
  {
  }

  /** `_upsert_taxpayers`: upserts every entry with a tax number, in order,
      and returns how many it processed. */
  method UpsertTaxpayers(store: seq<TaxpayerRecord>, entries: seq<CustomerResult>, einvoiceType: Option<nat>)
    returns (updated: seq<TaxpayerRecord>, importedCount: nat)
    ensures importedCount == CountWithTaxNo(entries)
    ensures updated == ImportAll(NodeText, store, entries, einvoiceType).0
    ensures |store| <= |updated| <= |store| + importedCount
  {
    updated := store;
    importedCount := 0;
    var i := 0;
    while i < |entries|
      invariant 0 <= i <= |entries|
      invariant updated == ImportAll(NodeText, store, entries[..i], einvoiceType).0
      invariant importedCount == CountWithTaxNo(entries[..i])
    {
      assert entries[..i + 1][..i] == entries[..i];
      var rec := ReadEntry(NodeText, entries[i], einvoiceType);
      if rec.Some? {
        updated := Upsert(updated, rec.value);
        importedCount := importedCount + 1;
      }
      i := i + 1;
    }
    assert entries[..|entries|] == entries;
  }
}

=== FILE: taxpayer_service.dfy ===
/** The three service calls' handling of a parsed response
    (models/edevletintegration.py): the taxpayer-list query, the streaming
    taxpayer import, and the customer tax-id check. The request, transport
    and XML parsing are not modelled; a response arrives already split into
    its status texts and its `EInvoiceCustomerResult` entries. */
module TaxpayerService {
  import opened Wrappers
  import opened PyStr
  import opened EdevletIntegration
  import opened TaxpayerImport

  /** A response's status texts (the first of each in document order, as
      `findtext` returns them) and its customer entries. */
  datatype ServiceResponse = ServiceResponse(
    serviceResult: Option<string>,
    serviceResultDescription: Option<string>,
    errorCode: Option<string>,
    customers: seq<CustomerResult>)

  /** `_get_taxpayer_nodes` after the call: the customer entries, unless the
      service result reports a failure. The status text is compared as found,
      without stripping. */
  function GetTaxpayerNodes(response: ServiceResponse): (r: Result<seq<CustomerResult>, UserError>)
    ensures r.Failure? <==> ServiceFailed(OrEmpty(response.serviceResult))
    ensures r.Success? ==> r.value == response.customers
    ensures r.Failure? ==> r.error == ServiceFailure(TaxpayerListQuery,
                                                     OrDash(OrEmpty(response.errorCode)),
                                                     OrDash(OrEmpty(response.serviceResultDescription)))
  {
    var status := CheckServiceResult(TaxpayerListQuery, OrEmpty(response.serviceResult),
                                     OrEmpty(response.errorCode), OrEmpty(response.serviceResultDescription));
    if status.Failure? then Failure(status.error) else Success(response.customers)
  }

  // ---------------------------------------------------------------------
  // Streaming import

  /** The elements the streaming import tells apart. */
  datatype StreamElement =
    | ServiceResultElement(text: Option<string>)
    | DescriptionElement(text: Option<string>)
    | ErrorCodeElement(text: Option<string>)
    | CustomerElement(entry: CustomerResult)
    | OtherElement

  /** `iterparse` events; only end events are acted on. */
  datatype StreamEvent = StartEvent(element: StreamElement) | EndEvent(element: StreamElement)

  datatype StatusField = ResultField | DescriptionField | ErrorCodeField

  /** The stripped text an event sets the status field to, if it sets it. */
  function StatusText(ev: StreamEvent, f: StatusField): Option<string> {
    if ev.StartEvent? then None
    else
      match ev.element
      case ServiceResultElement(t) => if f == ResultField then Some(Strip(OrEmpty(t))) else None
      case DescriptionElement(t) => if f == DescriptionField then Some(Strip(OrEmpty(t))) else None
      case ErrorCodeElement(t) => if f == ErrorCodeField then Some(Strip(OrEmpty(t))) else None
      case _ => None
  }

  /** The value of a status field after `events`: the last one set wins,
      '' when none was. */
  function LastStatus(events: seq<StreamEvent>, f: StatusField): (s: string)
    ensures Trimmed(s)
  {
    if events == [] then ""
    else
      var t := StatusText(events[|events| - 1], f);
      if t.Some? then t.value else LastStatus(events[..|events| - 1], f)
  }

  /** The customer entries of `events`, in document order. */
  function CustomersOf(events: seq<StreamEvent>): seq<CustomerResult> {
    if events == [] then []
    else
      var ev := events[|events| - 1];
      CustomersOf(events[..|events| - 1]) +
        (if ev.EndEvent? && ev.element.CustomerElement? then [ev.element.entry] else [])
  }

  /** What the streaming loop has collected so far. */
  datatype StreamState = StreamState(
    store: seq<TaxpayerRecord>,
    importedCount: nat,
    serviceResult: string,
    description: string,
    errorCode: string)

  /** One pass of the streaming loop: start events and unknown elements are
      skipped, a status element overwrites its text (stripped), and a
      customer entry is upserted and counted when it has a tax number. */
  function Absorb(st: StreamState, ev: StreamEvent, einvoiceType: Option<nat>): (r: StreamState)
    ensures r.serviceResult == StatusText(ev, ResultField).GetOr(st.serviceResult)
    ensures r.description == StatusText(ev, DescriptionField).GetOr(st.description)
    ensures r.errorCode == StatusText(ev, ErrorCodeField).GetOr(st.errorCode)
    ensures !(ev.EndEvent? && ev.element.CustomerElement?) ==>
              r.store == st.store && r.importedCount == st.importedCount
    ensures ev.EndEvent? && ev.element.CustomerElement? ==>
              var e := ev.element.entry;
              && r.importedCount == st.importedCount + (if HasTaxNo(e) then 1 else 0)
              && (HasTaxNo(e) ==> ReadEntry(Streamed, e, einvoiceType).value in r.store)
              && (!HasTaxNo(e) ==> r.store == st.store)
  {
    if ev.StartEvent? then st
    else
      match ev.element
      case ServiceResultElement(t) => st.(serviceResult := Strip(OrEmpty(t)))
      case DescriptionElement(t) => st.(description := Strip(OrEmpty(t)))
      case ErrorCodeElement(t) => st.(errorCode := Strip(OrEmpty(t)))
      case CustomerElement(e) =>
        st.(store := Step(Streamed, st.store, e, einvoiceType),
            importedCount := st.importedCount + (if HasTaxNo(e) then 1 else 0))
      case OtherElement => st
  }

  lemma LastStatusStep(events: seq<StreamEvent>, i: nat, f: StatusField)
    requires i < |events|
    ensures LastStatus(events[..i + 1], f) ==
              if StatusText(events[i], f).Some? then StatusText(events[i], f).value else LastStatus(events[..i], f)
  {
    assert events[..i + 1][..i] == events[..i];
  }

  lemma CustomersStep(events: seq<StreamEvent>, i: nat)
    requires i < |events|
    ensures CustomersOf(events[..i + 1]) == CustomersOf(events[..i]) +
              (if events[i].EndEvent? && events[i].element.CustomerElement? then [events[i].element.entry] else [])
  {
    assert events[..i + 1][..i] == events[..i];
  }

  /** `st` holds the status texts `events` should have left. */
  predicate TracksStatus(st: StreamState, events: seq<StreamEvent>) {
    && st.serviceResult == LastStatus(events, ResultField)
    && st.description == LastStatus(events, DescriptionField)
    && st.errorCode == LastStatus(events, ErrorCodeField)
  }

  /** `st` holds the store and count that importing the entries of `events`
      into `store` should have produced. */
  predicate TracksEntries(st: StreamState, store: seq<TaxpayerRecord>, events: seq<StreamEvent>, einvoiceType: Option<nat>) {
    && st.store == ImportAll(Streamed, store, CustomersOf(events), einvoiceType).0
    && st.importedCount == CountWithTaxNo(CustomersOf(events))
  }

  lemma AbsorbTracksStatus(st: StreamState, events: seq<StreamEvent>, i: nat, einvoiceType: Option<nat>)
    requires i < |events| && TracksStatus(st, events[..i])
    ensures TracksStatus(Absorb(st, events[i], einvoiceType), events[..i + 1])
  {
    LastStatusStep(events, i, ResultField);
    LastStatusStep(events, i, DescriptionField);
    LastStatusStep(events, i, ErrorCodeField);
  }

  lemma AbsorbTracksEntries(st: StreamState, store: seq<TaxpayerRecord>, events: seq<StreamEvent>, i: nat,
                            einvoiceType: Option<nat>)
    requires i < |events| && TracksEntries(st, store, events[..i], einvoiceType)
    ensures TracksEntries(Absorb(st, events[i], einvoiceType), store, events[..i + 1], einvoiceType)
  {
    if events[i].EndEvent? && events[i].element.CustomerElement? {
      AbsorbCustomerStore(st, store, events, i, einvoiceType);
      AbsorbCustomerCount(st, store, events, i, einvoiceType);
    } else {
      AbsorbOtherEntries(st, store, events, i, einvoiceType);
    }
  }

  lemma AbsorbCustomerStore(st: StreamState, store: seq<TaxpayerRecord>, events: seq<StreamEvent>, i: nat,
                            einvoiceType: Option<nat>)
    requires i < |events| && TracksEntries(st, store, events[..i], einvoiceType)
    requires events[i].EndEvent? && events[i].element.CustomerElement?
    ensures Absorb(st, events[i], einvoiceType).store ==
              ImportAll(Streamed, store, CustomersOf(events[..i + 1]), einvoiceType).0
  {
    var e := events[i].element.entry;
    assert Absorb(st, events[i], einvoiceType).store == Step(Streamed, st.store, e, einvoiceType);
    CustomersStep(events, i);
    ImportSnoc(Streamed, store, CustomersOf(events[..i]), events[i].element.entry, einvoiceType);
  }

  lemma AbsorbCustomerCount(st: StreamState, store: seq<TaxpayerRecord>, events: seq<StreamEvent>, i: nat,
                            einvoiceType: Option<nat>)
    requires i < |events| && TracksEntries(st, store, events[..i], einvoiceType)
    requires events[i].EndEvent? && events[i].element.CustomerElement?
    ensures Absorb(st, events[i], einvoiceType).importedCount == CountWithTaxNo(CustomersOf(events[..i + 1]))
  {
    CustomersStep(events, i);
    ImportSnoc(Streamed, store, CustomersOf(events[..i]), events[i].element.entry, einvoiceType);
  }

  lemma AbsorbOtherEntries(st: StreamState, store: seq<TaxpayerRecord>, events: seq<StreamEvent>, i: nat,
                           einvoiceType: Option<nat>)
    requires i < |events| && TracksEntries(st, store, events[..i], einvoiceType)
    requires !(events[i].EndEvent? && events[i].element.CustomerElement?)
    ensures TracksEntries(Absorb(st, events[i], einvoiceType), store, events[..i + 1], einvoiceType)
  {
    var customers := CustomersOf(events[..i]);
    assert CustomersOf(events[..i + 1]) == customers by {
      CustomersStep(events, i);
      assert customers + [] == customers;
    }
  }

  /** `_upsert_taxpayers_from_xml_stream` after parsing has started: every
      customer entry is upserted as it ends, the status texts are collected
      along the way, and only after the last event is the service result
      checked. The store is therefore updated whether or not the call then
      raises; on success the result is the number of entries processed. */
  method UpsertFromStream(integration: Integration, store: seq<TaxpayerRecord>, events: seq<StreamEvent>)
    returns (updated: seq<TaxpayerRecord>, result: Result<nat, UserError>)
    ensures updated == ImportAll(Streamed, store, CustomersOf(events), EinvoiceType(integration)).0
    ensures result.Failure? <==> ServiceFailed(LastStatus(events, ResultField))
    ensures result.Success? ==> result.value == CountWithTaxNo(CustomersOf(events))
    ensures result.Failure? ==>
              result.error == ServiceFailure(TaxpayerListQuery,
                                             OrDash(LastStatus(events, ErrorCodeField)),
                                             OrDash(LastStatus(events, DescriptionField)))
  {
    var einvoiceType := EinvoiceType(integration);
    var st := StreamState(store, 0, "", "", "");
    var i := 0;
    assert events[..0] == [];
    while i < |events|
      invariant 0 <= i <= |events|
      invariant TracksStatus(st, events[..i])
      invariant TracksEntries(st, store, events[..i], einvoiceType)
    {
      AbsorbTracksStatus(st, events, i, einvoiceType);
      AbsorbTracksEntries(st, store, events, i, einvoiceType);
      st := Absorb(st, events[i], einvoiceType);
      i := i + 1;
    }
    assert events[..|events|] == events;
    updated := st.store;
    var status := CheckServiceResult(TaxpayerListQuery, st.serviceResult, st.errorCode, st.description);
    if status.Failure? {
      result := Failure(status.error);
    } else {
      result := Success(st.importedCount);
    }
  }

  /** `_import_taxpayer_list`: the settings are checked, then a ticket is
      obtained, then the streamed response is imported. The ticket's text
      only goes into the request envelope, which is not modelled; a ticket
      of only whitespace is still sent. */
  method ImportTaxpayerList(integration: Integration, ticketFound: Option<string>,
                            store: seq<TaxpayerRecord>, events: seq<StreamEvent>)
    returns (updated: seq<TaxpayerRecord>, result: Result<nat, UserError>)
    ensures CheckImportSettings(integration).Failure? ==>
              updated == store && result == Failure(CheckImportSettings(integration).error)
    ensures CheckImportSettings(integration).Success? && !Truthy(ticketFound) ==>
              updated == store && result == Failure(MissingTicket)
    ensures CheckImportSettings(integration).Success? && Truthy(ticketFound) ==>
              && updated == ImportAll(Streamed, store, CustomersOf(events), EinvoiceType(integration)).0
              && (result.Failure? <==> ServiceFailed(LastStatus(events, ResultField)))
              && (result.Success? ==> result.value == CountWithTaxNo(CustomersOf(events)))
              && (result.Failure? ==>
                    result.error == ServiceFailure(TaxpayerListQuery,
                                                   OrDash(LastStatus(events, ErrorCodeField)),
                                                   OrDash(LastStatus(events, DescriptionField))))
  {
    var settings := CheckImportSettings(integration);
    if settings.Failure? {
      return store, Failure(settings.error);
    }
    var ticket := TicketFrom(ticketFound);
    if ticket.Failure? {
      return store, Failure(ticket.error);
    }
    updated, result := UpsertFromStream(integration, store, events);
  }

  /** A failing status that arrives after an entry still fails the call,
      but the entry has been written by then. */
  lemma FailureAfterEntries(store: seq<TaxpayerRecord>, e: CustomerResult, status: string, einvoiceType: Option<nat>)
    requires HasTaxNo(e) && ServiceFailed(Strip(status))
    ensures var events := [EndEvent(CustomerElement(e)), EndEvent(ServiceResultElement(Some(status)))];
            && ServiceFailed(LastStatus(events, ResultField))
            && CustomersOf(events) == [e]
            && ImportAll(Streamed, store, CustomersOf(events), einvoiceType).1 == 1
            && ReadEntry(Streamed, e, einvoiceType).value in ImportAll(Streamed, store, CustomersOf(events), einvoiceType).0
  {
    var events := [EndEvent(CustomerElement(e)), EndEvent(ServiceResultElement(Some(status)))];
    assert events[..0] == [] && events[..2] == events;
    assert CustomersOf(events[..1]) == [e] by {
      CustomersStep(events, 0);
    }
    assert CustomersOf(events) == [e] by {
      CustomersStep(events, 1);
      assert [e] + [] == [e];
    }
    assert LastStatus(events, ResultField) == Strip(status) by {
      LastStatusStep(events, 1, ResultField);
    }
    ImportSnoc(Streamed, store, [], e, einvoiceType);
    assert [] + [e] == [e];
    assert ImportAll(Streamed, store, [e], einvoiceType).0 == Upsert(store, ReadEntry(Streamed, e, einvoiceType).value);
  }

  lemma LowerOfSuccessful()
    ensures Lower("successful") == "successful"
  {
  }

  /** A string that starts with whitespace is never 'successful' in any case. */
  lemma PaddedIsNotSuccessful(s: string)
    requires s != [] && IsSpace(s[0])
    ensures ServiceFailed(s)
  {
    assert Lower(s)[0] == s[0];
  }

  /** The streaming import strips the status text and the other calls do
      not: 'successful' padded with whitespace passes the one and fails the
      others. */
  lemma PaddedSuccessOnlyPassesStream(pad: string, integration: Integration, store: seq<TaxpayerRecord>)
    requires pad != [] && AllSpace(pad)
    ensures !ServiceFailed(LastStatus([EndEvent(ServiceResultElement(Some(pad + "successful")))], ResultField))
    ensures GetTaxpayerNodes(ServiceResponse(Some(pad + "successful"), None, None, [])).Failure?
    ensures CheckCustomerTaxId(integration, store, ServiceResponse(Some(pad + "successful"), None, None, [])).Failure?
  {
    var padded := pad + "successful";
    var events := [EndEvent(ServiceResultElement(Some(padded)))];
    assert Strip(padded) == "successful" by {
      StripPadding(pad, "successful", "");
      assert padded + "" == padded;
    }
    assert LastStatus(events, ResultField) == "successful" by {
      LastStatusStep(events, 0, ResultField);
      assert events[..0] == [] && events[..1] == events;
    }
    LowerOfSuccessful();
    PaddedIsNotSuccessful(padded);
  }

  // ---------------------------------------------------------------------
  // Customer tax-id check
  /** The tax-id check's answer: the updated store and the summary text. */
  datatype CheckOutcome = CheckOutcome(store: seq<TaxpayerRecord>, summary: string)

  const NoRecordsMessage := "Sorgu başarılı fakat kayıt bulunamadı."

  /** A customer is registered when its `IsExist` text, stripped and
      lower-cased, is 'true'. */
  predicate IsRegistered(c: CustomerResult) {
    Lower(Strip(OrEmpty(c.isExist))) == "true"
  }

  /** A summary field: the normalised text, or '-' when it is blank or missing. */
  function Field(v: Option<string>): (f: string)
    ensures f != ""
    ensures f == "-" <==> NormalizeNodeText(v) == None || NormalizeNodeText(v) == Some("-")
    ensures f != "-" ==> Some(f) == NormalizeNodeText(v)
  {
    NormalizeNodeText(v).GetOr("-")
  }

  /** The fixed part of a summary line, before the status word. */
  function LinePrefix(c: CustomerResult): string {
    Field(c.taxIdOrPersonalId) + " | " + Field(c.name) + " | " + Field(c.alias) + " | Durum: "
  }

  /** One summary line: tax id, name and alias ('-' when blank or missing)
      and the status 'Var' or 'Yok', with nothing else around them. */
  function SummaryLine(c: CustomerResult): (line: string)
    ensures StartsWith(line, LinePrefix(c))
    ensures EndsWith(line, if IsRegistered(c) then "Var" else "Yok")
    ensures |line| == |LinePrefix(c)| + 3
  {
    var status := if IsRegistered(c) then "Var" else "Yok";
    ConcatStartsEnds(LinePrefix(c), status);
    LinePrefix(c) + status
  }

  /** `sep.join(lines)` */
  function Join(lines: seq<string>, sep: string): (r: string)
    ensures lines == [] ==> r == ""
    ensures |lines| == 1 ==> r == lines[0]
    ensures |lines| > 1 ==> StartsWith(r, lines[0] + sep) && EndsWith(r, sep + lines[|lines| - 1])
  {
    if lines == [] then ""
    else if |lines| == 1 then lines[0]
    else
      var rest := Join(lines[1..], sep);
      ConcatStartsEnds(lines[0] + sep, rest);
      assert lines[1..][|lines[1..]| - 1] == lines[|lines| - 1];
      assert (lines[0] + sep) + rest == lines[0] + (sep + rest);
      lines[0] + sep + rest
  }

  /** Joining lines that do not contain the separator puts exactly one
      separator between each two of them, so the joined text holds one
      fewer separator than there are lines. */
  lemma {:induction false} JoinSeparators(lines: seq<string>, c: char)
    requires lines != []
    requires forall i :: 0 <= i < |lines| ==> c !in lines[i]
    ensures Occurrences(Join(lines, [c]), c) == |lines| - 1
  {
    if |lines| > 1 {
      JoinSeparators(lines[1..], c);
      var rest := Join(lines[1..], [c]);
      OccurrencesAppend(lines[0], [c], c);
      OccurrencesAppend(lines[0] + [c], rest, c);
    }
  }

  /** `s.split(c)`: the pieces between the occurrences of `c`. */
  function Split(s: string, c: char): (parts: seq<string>)
    ensures |parts| >= 1
    decreases |s|
  {
    if s == [] then [""]
    else
      var rest := Split(s[1..], c);
      if s[0] == c then [""] + rest
      else [[s[0]] + rest[0]] + rest[1..]
  }

  /** Text without the separator splits into itself. */
  lemma {:induction false} SplitWithoutSeparator(a: string, c: char)
    requires c !in a
    ensures Split(a, c) == [a]
    decreases |a|
  {
    if a != [] {
      SplitWithoutSeparator(a[1..], c);
      assert [a[0]] + a[1..] == a;
    }
  }

  /** Splitting at the first separator gives the text before it, then the
      pieces of the rest. */
  lemma {:induction false} SplitAtFirst(a: string, b: string, c: char)
    requires c !in a
    ensures Split(a + [c] + b, c) == [a] + Split(b, c)
    decreases |a|
  {
    var s := a + [c] + b;
    if a == [] {
      assert s[0] == c && s[1..] == b;
    } else {
      assert s[0] == a[0] && s[1..] == a[1..] + [c] + b;
      SplitAtFirst(a[1..], b, c);
      assert [a[0]] + a[1..] == a;
    }
  }

  /** Splitting the joined lines at the separator gives the lines back, so
      the separators sit exactly between them. */
  lemma {:induction false} JoinSplitRoundTrip(lines: seq<string>, c: char)
    requires lines != []
    requires forall i :: 0 <= i < |lines| ==> c !in lines[i]
    ensures Split(Join(lines, [c]), c) == lines
  {
    if |lines| == 1 {
      SplitWithoutSeparator(lines[0], c);
    } else {
      JoinSplitRoundTrip(lines[1..], c);
      SplitAtFirst(lines[0], Join(lines[1..], [c]), c);
      assert [lines[0]] + lines[1..] == lines;
    }
  }

  function SummaryLines(customers: seq<CustomerResult>): (lines: seq<string>)
    ensures |lines| == |customers|
    ensures forall i :: 0 <= i < |customers| ==> lines[i] == SummaryLine(customers[i])
  {
    seq(|customers|, i requires 0 <= i < |customers| => SummaryLine(customers[i]))
  }

  /** `_check_customer_tax_id` after the call: a failing service result
      raises before anything is written; no entries gives a fixed message
      and leaves the store alone; otherwise the entries are upserted and
      one summary line per entry, in order, is returned. */
  function CheckCustomerTaxId(integration: Integration, store: seq<TaxpayerRecord>, response: ServiceResponse)
    : (r: Result<CheckOutcome, UserError>)
    ensures r.Failure? <==> ServiceFailed(OrEmpty(response.serviceResult))
    ensures r.Failure? ==> r.error == ServiceFailure(TaxIdCheckQuery,
                                                     OrDash(OrEmpty(response.errorCode)),
                                                     OrDash(OrEmpty(response.serviceResultDescription)))
    ensures r.Success? && response.customers == [] ==> r.value == CheckOutcome(store, NoRecordsMessage)
    ensures r.Success? && response.customers != [] ==>
              r.value.store == ImportAll(Checked, store, response.customers, EinvoiceType(integration)).0
    ensures r.Success? && response.customers != [] ==>
              r.value.summary == Join(SummaryLines(response.customers), "\n")
  {
    var status := CheckServiceResult(TaxIdCheckQuery, OrEmpty(response.serviceResult),
                                     OrEmpty(response.errorCode), OrEmpty(response.serviceResultDescription));
    if status.Failure? then Failure(status.error)
    else if response.customers == [] then Success(CheckOutcome(store, NoRecordsMessage))
    else
      var updated := ImportAll(Checked, store, response.customers, EinvoiceType(integration)).0;
      Success(CheckOutcome(updated, Join(SummaryLines(response.customers), "\n")))
  }

  /** When no entry's texts contain a line break, the summary has exactly
      one line per customer entry. */
  lemma SummaryLineCount(integration: Integration, store: seq<TaxpayerRecord>, response: ServiceResponse)
    requires !ServiceFailed(OrEmpty(response.serviceResult)) && response.customers != []
    requires forall i :: 0 <= i < |response.customers| ==> '\n' !in SummaryLine(response.customers[i])
    ensures Occurrences(CheckCustomerTaxId(integration, store, response).value.summary, '\n')
            == |response.customers| - 1
    ensures Split(CheckCustomerTaxId(integration, store, response).value.summary, '\n')
            == SummaryLines(response.customers)
  {
    JoinSeparators(SummaryLines(response.customers), '\n');
    JoinSplitRoundTrip(SummaryLines(response.customers), '\n');
  }

  /** A summary line reports 'Var' exactly for a registered customer. */
  lemma StatusVarIffRegistered(c: CustomerResult)
    ensures SummaryLine(c)[|SummaryLine(c)| - 3..] == "Var" <==> IsRegistered(c)
  {
  }

  /** The status ignores surrounding whitespace and letter case: a text
      that is some whitespace, a word, and some whitespace reads as
      registered exactly when the word is 'true' in some letter case. */
  lemma IsRegisteredIgnoresPadding(c: CustomerResult, before: string, word: string, after: string)
    requires AllSpace(before) && AllSpace(after) && word != [] && Trimmed(word)
    requires c.isExist == Some(before + word + after)
    ensures IsRegistered(c) <==> Lower(word) == "true"
  {
    StripPadding(before, word, after);
  }

  lemma IsExistExamples(c: CustomerResult)
    ensures c.isExist == None ==> !IsRegistered(c)
    ensures c.isExist == Some("TRUE") ==> IsRegistered(c)
    ensures c.isExist == Some("1") ==> !IsRegistered(c)
  {
    if c.isExist == Some("TRUE") {
      StripTrimmed("TRUE");
      assert Lower("TRUE") == "true";
    }
    if c.isExist == Some("1") {
      StripTrimmed("1");
    }
  }
}

=== FILE: wrappers.dfy ===
/** Failure-carrying values: Option stands for Python's None/False-or-value,
    Result for a value or a raised Odoo exception. */
module Wrappers {

  datatype Option<+T> = None | Some(value: T) {

    /** The value, or `default` when absent. */
    function GetOr(default: T): T {
      match this
      case Some(v) => v
      case None => default
    }

    /** Turns an absent value into the given error. */
    function ToResult<E>(error: E): Result<T, E> {
      match this
      case Some(v) => Success(v)
      case None => Failure(error)
    }
  }

  datatype Result<+R, +E> = Success(value: R) | Failure(error: E)
}
